=== FILE: README.md ===
# Fina Digital WiFi storefront — a Dafny model of its sequential logic

The storefront sells time-boxed WiFi passes. A visitor picks a pass from the
catalog, fills a billing and identity form, pays through the FedaPay widget,
and the success view then asks a code-issuance webhook for the access code,
retrying up to three requests in all. A visitor who already has a transaction
id can ask for its code by hand from a manual screen.

This project models the three pieces of that flow that are sequential logic
rather than markup:

- **Code retrieval** (`components/SuccessView.tsx`). `CodeRules` models
  `extractCode` over a JSON-like union (`Json.Json`: null, boolean, integer,
  string, array, keyed object), the classification of a response body (blank,
  decoded, or raw text), the acceptance test that rejects the empty code and
  the sentinel `{{ $json.output }}`, and the verdict of one request. `SuccessView`
  models the component's state, the automatic `fetchCode` loop, the single-shot
  `fetchManualCode`, and which panel is rendered. The loop is a recursive
  function over the sequence of outcomes the webhook produces, one per request.
  When that sequence runs out, the current request is still in flight.
- **Checkout** (`components/PaymentModal.tsx`). `PaymentModal` models the form,
  `isFormValid` and `isButtonDisabled`, the email regular expression
  `^\S+@\S+\.\S+$`, the gate that arms the widget, the configuration it is
  armed with, the `onComplete` callback and `handleChange`.
- **Page state** (`App.tsx`). `App` models the four state fields, the five
  handlers, and the screen those fields select. It also has an event-level
  machine that offers each control only on the screen that shows it. An
  approval reaches the page only after the persistence call settles, so the
  machine also lets a late approval land once its modal has been closed: on
  any screen, including the checkout of a modal opened later, it jumps to
  automatic retrieval for the pass that modal was opened for.

`Text` holds JavaScript's whitespace set, `trim()` and integer rendering.
`Json` holds truthiness and `String(x)`. `Catalog` holds the records of
`types.ts` and the pass list of `constants.ts`. `Scenarios` replays four
end-to-end runs: a code on the first reply, a code on the third reply after
two empty ones, a server that always fails, and the sentinel on the manual
path.

A few behaviours of the code are easy to misread. The model follows the code
in each case:

- The keyed-object probe takes the first *truthy* value, not the first
  non-empty one. A `0` or `false` is skipped. A whitespace-only string is
  taken, so it yields `""` and shadows the later keys (`BlankKeyShadows`).
- The pay button's email test only looks for an `@`. Only the widget gate
  uses the regular expression (`ButtonEnabledWithoutGate`).
- An approval that settles after the visitor closed the modal still shows
  automatic retrieval for its own pass, even over the manual screen or the
  modal of another pass, which it closes (`LateApprovalShowsRetrieval`).
- Editing a field after a decline re-arms the form, but the error text stays
  on screen. A cancel does not clear it either (`HandleChange`, `OnComplete`).
- Without a transaction id, the automatic view stops loading and shows the
  confirmation panel with no code and no error (`MountedPanel`).
- There is no protection against stale results. A retry that is already
  scheduled is never cancelled. Nothing in the model claims otherwise.

## Model

| member | source | states |
|---|---|---|
| Text.Trim | components/SuccessView.tsx:34 | `trim()` returns the slice of the input that has whitespace dropped from both ends. The result has no whitespace at either end. It is empty exactly when the input is all whitespace. |
| Text.TrimIdempotent | components/SuccessView.tsx:34 | Trimming twice gives the same text as trimming once. |
| Text.NatToStringRoundTrip | components/SuccessView.tsx:81 | The decimal text of a status code or number reads back as the same number. |
| Json.ToText | components/SuccessView.tsx:50 | `String(v)` of a string is the string itself. For a number or boolean it is non-empty text with no whitespace, so trimming leaves it unchanged. |
| CodeRules.FirstHit | components/SuccessView.tsx:42-48 | The `a \|\| b \|\| …` chain stops at the first key whose value is present and truthy. Every earlier key misses. When nothing is found, every key misses. |
| CodeRules.FirstHitAt | components/SuccessView.tsx:42-48 | When key k hits and no earlier key does, the chain stops exactly at k. |
| CodeRules.ExtractCode | components/SuccessView.tsx:30-51 | A falsy value yields nothing. Any code extracted is trimmed, at any array nesting depth. |
| CodeRules.ExtractFromString | components/SuccessView.tsx:33-34 | A string yields its trimmed form. The empty string yields nothing. |
| CodeRules.ExtractFromArray | components/SuccessView.tsx:36-39 | An array yields what its first element yields. An empty array yields nothing. |
| CodeRules.ExtractFromScalar | components/SuccessView.tsx:30-50 | A number or boolean yields nothing, even when truthy. |
| CodeRules.ExtractKeyPriority | components/SuccessView.tsx:42-50 | When key k of the fixed order is the first that hits, the result is that key's value, converted to text and trimmed, whatever the later keys hold. |
| CodeRules.ExtractNoKey | components/SuccessView.tsx:42-50 | An object in which none of the seven keys hits yields nothing. |
| CodeRules.BlankKeyShadows | components/SuccessView.tsx:42-50 | A whitespace-only string under an earlier key yields `""`, which is rejected, even when later keys hold a real code. |
| CodeRules.Classify | components/SuccessView.tsx:86-97 | A blank body is no body. A non-blank body that decodes is its decoded value. A non-blank body that does not decode is kept as its raw text. |
| CodeRules.Judge | components/SuccessView.tsx:79-101 | An attempt throws exactly when the transport fails or the status is not 2xx. A code it finds is accepted and trimmed. |
| CodeRules.JudgeOkReply | components/SuccessView.tsx:99-101 | A 2xx reply finds a code exactly when its body's candidate is non-empty and is not the sentinel. The code found is that candidate. |
| CodeRules.SentinelRejected | components/SuccessView.tsx:101 | The sentinel, even padded with whitespace, is rejected when it arrives as a string, inside a one-element array, or under any of the seven keys. |
| CodeRules.SentinelReplyIsNoCode | components/SuccessView.tsx:84-101 | A 2xx reply holding the sentinel finds no code. This holds for the bare template, which does not decode, and for a JSON string holding it. |
| CodeRules.ScalarReplyIsNoCode | components/SuccessView.tsx:91-101 | A body that decodes to a number, such as `123456`, or to a boolean finds no code. |
| CodeRules.BlankReplyIsNoCode | components/SuccessView.tsx:87-89 | A blank 2xx body finds no code, whatever the decoder would make of it. |
| SuccessView.FetchCode | components/SuccessView.tsx:54-126 | Manual mode or a falsy id sends nothing and only stops loading. Otherwise the run sends between 1 and the remaining budget of requests, all with the transaction's id, which is at most 3 from attempt 0. Loading continues only while a request is in flight. A shown code is accepted and comes without an error. A finished run ends with either a code or an error, never both. It gives up only at attempt index 2. Each retry stores its attempt number as the retry count. The manual error is cleared; the typed id and the manual loading flag are not touched. |
| SuccessView.FetchCodeFinds | components/SuccessView.tsx:99-109 | If an attempt within the budget finds a code, the run stops at the first such attempt with that code, after that many requests. |
| SuccessView.FetchCodeGivesUp | components/SuccessView.tsx:105-124 | If no attempt within the budget finds a code, the run sends the whole budget and reports the last attempt's failure. That is the connection message for a thrown error and the "no code" message otherwise. |
| SuccessView.FetchCodePending | components/SuccessView.tsx:105-109 | If no answered attempt found a code and the budget is not spent, the view is still loading, with one more request sent than replies received. |
| SuccessView.FetchCodeRetry | components/SuccessView.tsx:105-109 | An attempt that finds no code, with budget left, sends its own request. The rest of the run is a fresh run of the next attempt, started from the cleared view with the retry count set to that attempt's number. |
| SuccessView.Mount | components/SuccessView.tsx:189-193 | Mounting sends at most 3 requests. The manual screen sends none and keeps its initial state. The stored retry count never passes 2. |
| SuccessView.FetchManualCode | components/SuccessView.tsx:129-187 | A blank id sends nothing and sets the "enter an id" message. Otherwise exactly one request goes out, with the trimmed id. Once it settles the spinner stops, and the view shows a code exactly when the attempt found one, with an error message otherwise. Nothing is retried. The automatic path's loading flag and retry count are left alone. |
| SuccessView.PathsAgree | components/SuccessView.tsx:159-175 | Given the same reply, the automatic path's first attempt and a manual request show the same code, or both show none. |
| SuccessView.MountedPanel | components/SuccessView.tsx:195-234 | After an automatic run the page shows one of three things. It can show the spinner, whose counter reads 2/3 or 3/3 when shown. It can show the accepted code with the connect button. It can show the reported error. Without an id it shows the confirmation panel with no code. |
| SuccessView.ManualEntryOpensOnPrompt | components/SuccessView.tsx:19-27 | The manual screen opens on the error box showing the prompt to enter a transaction id. |
| SuccessView.EnabledButtonSendsOnce | components/SuccessView.tsx:250-252 | When the manual button is enabled, a click sends exactly one request, with the trimmed id. |
| SuccessView.ManualPanel | components/SuccessView.tsx:173-183 | A settled manual request shows the code with the connect button when found. Otherwise it shows the "not found" message or the thrown error's message. |
| PaymentModal.EmailShapedIsRegex | components/PaymentModal.tsx:38 | The regular expression accepts exactly the texts with no whitespace that have an `@` at index i ≥ 1 and a `.` at index j with i+2 ≤ j ≤ length−2. |
| PaymentModal.MatchEmail | components/PaymentModal.tsx:38 | A single left-to-right scan decides the email regular expression. |
| PaymentModal.ValidFormEnablesButton | components/PaymentModal.tsx:35-41 | A form that passes `isFormValid` also enables the pay button. |
| PaymentModal.ButtonEnabledWithoutGate | components/PaymentModal.tsx:105-112 | The converse fails. With the email `a@b` the button is enabled, but the gate does not arm the widget for this form. |
| PaymentModal.ShortEmailNotShaped | components/PaymentModal.tsx:38 | The email pattern rejects every text shorter than five characters. |
| PaymentModal.PhoneIsLengthOnly | components/PaymentModal.tsx:39 | Replacing the phone with any text of the same length changes neither test, so the phone is checked untrimmed and without a digit check. |
| PaymentModal.InitialModalIsBlocked | components/PaymentModal.tsx:21-32 | The modal opens idle, with no error and an empty form that neither test accepts. |
| PaymentModal.InitCheckout | components/PaymentModal.tsx:43-58 | The widget is armed exactly when it is present, the form is valid and the status is idle. It then charges the pass price with the public key and the form's own customer details. The description is exactly the head `WiFi Fina Digital: `, the label, the `ID:` tag, the id reference, the `WA:` tag and the WhatsApp number, each tag set off by a vertical bar. |
| PaymentModal.DescriptionShape | components/PaymentModal.tsx:48 | The description splits back into its parts at fixed offsets: the head and label, the `ID:` tag, the id reference, the `WA:` tag, then the WhatsApp number, which ends it. |
| PaymentModal.OnComplete | components/PaymentModal.tsx:59-94 | An approved payment hands its transaction to `onSuccess` exactly once, records the sale with the form's six contact fields, the transaction id, the price and the pass label, and leaves the modal unchanged. A cancel returns to idle and keeps the error text. Any other response, a missing one included, sets the declined message and the error status. |
| PaymentModal.OnCompleteIgnoresPersistence | components/PaymentModal.tsx:62-85 | Whether the persistence call succeeds changes nothing the visitor sees. |
| PaymentModal.HandleChange | components/PaymentModal.tsx:99-103 | An edit changes the named field and no other. It moves an errored status back to idle and leaves every other status alone. The error text is kept. |
| PaymentModal.StatusIsIdleOrError | components/PaymentModal.tsx:88-102 | Over any sequence of edits and completions the status stays idle or error. |
| PaymentModal.DeclineBlocksReinitUntilEdit | components/PaymentModal.tsx:43-103 | After a decline the gate does not call `init` again until a field is edited. After the edit, only the form's validity and the widget's presence decide. |
| Catalog.CatalogWellFormed | constants.ts:4-50 | Every pass has a positive price, and no two passes share an id. |
| App.CurrentScreen | App.tsx:40-64 | A retrieval screen is shown exactly when a purchase completed or the manual flag is set. A completed purchase takes precedence over the manual flag. The modal is shown only when it is open and names the selected pass. A card is highlighted exactly when a pass is selected. |
| App.SelectPlan | App.tsx:16-19 | Selecting a pass from the catalog highlights its card and opens the modal for it. The purchase data and the manual flag are unchanged. |
| App.PaymentSuccess | App.tsx:21-26 | With no pass selected in the render the handler closes over, nothing happens. Otherwise the page moves to automatic retrieval for that pass and this transaction, closes the modal and keeps the current selection. |
| App.Reset | App.tsx:28-33 | Every field returns to its initial value, which shows the unselected catalog. |
| App.ResetIdempotent | App.tsx:28-33 | Resetting twice is the same as resetting once. |
| App.CloseModal | App.tsx:160 | Closing the modal clears only the open flag, so the selected card stays highlighted. |
| App.OpenManualRetrieval | App.tsx:149 | The footer link shows the manual screen, with the first catalog pass, a null-id transaction and manual mode. It does nothing visible once a purchase has completed. |
| App.InitialStateConsistent | App.tsx:10-13 | The first render's state is consistent. |
| App.StepKeepsConsistent | App.tsx:11-33 | Every offered control or approval keeps the four fields consistent. An open modal has a selected pass from the catalog. A completed purchase is for a catalog pass, with the modal closed. The manual flag never coexists with an open modal. |
| App.RunKeepsConsistent | App.tsx:11-33 | Consistency holds after any sequence of visitor actions and approvals, late ones included. |
| App.ReachableConsistent | App.tsx:10-33 | Every state reached from the first render is consistent. |
| App.ModalShownIffOpen | App.tsx:157 | In a consistent state the modal appears on the catalog exactly when it is open. |
| App.StepFollowsPhases | App.tsx:40-163 | Every action follows one of the transitions browsing → checkout, checkout → automatic retrieval, checkout → browsing, browsing → manual retrieval and retrieval → browsing, or a late approval's jump from any phase to automatic retrieval. |
| App.LateApprovalShowsRetrieval | App.tsx:21-26 | An approval landing after its modal was closed is accepted on every screen, a later checkout included. It shows automatic retrieval for the modal's own pass, closes any modal shown, and leaves the current selection alone. |
| Scenarios.ScenarioFirstReplyCarriesCode | components/SuccessView.tsx:99-104 | The 150 CFA pass is bought with a valid form and approved as `TX1`. A first reply carrying `code_wifi` `A1B2C3` shows that code after one request. |
| Scenarios.KeyedReplyFinds | components/SuccessView.tsx:42-50 | A 2xx reply that decodes to an object with a single probed key finds the code stored under it, whichever of the seven keys it is, when that code is non-empty, has no whitespace at either end and is not the sentinel. |
| Scenarios.ApprovedDelivers | components/PaymentModal.tsx:60-85 | An approved transaction is handed to `onSuccess`, whatever the modal and the pass. |
| Scenarios.PaidSecondPass | App.tsx:21-26 | Paying for the chosen pass moves the page to the automatic retrieval screen for that pass and transaction. |
| Scenarios.ScenarioThirdReplyCarriesCode | components/SuccessView.tsx:84-109 | Two empty replies followed by `wifi_code` `Z9Z9` show `Z9Z9` after three requests and two scheduled retries. |
| Scenarios.ScenarioServerAlwaysFails | components/SuccessView.tsx:79-124 | Three 500 replies end with the connection error on the error box, which offers manual retrieval. |
| Scenarios.ServerFailsThrice | components/SuccessView.tsx:79-124 | Three replies with the same non-2xx status end, after three requests, in the connection error wrapping the server message. The error box shows it. |
| Scenarios.ScenarioManualSentinel | components/SuccessView.tsx:129-180 | On the manual screen, id `TX2` answered by the bare sentinel sends one request and shows "not found". The visitor can then correct the id and send one new request. |
| Scenarios.ManualLinkOpens | App.tsx:53-64 | The footer link on the fresh catalog opens the manual screen, with the first pass and a null-id transaction. |

## Left out

- Network calls (`fetch`), `JSON.parse`, the 3-second `setTimeout`, `console` logging, the clipboard and `alert`, and the captive-portal redirect. Replies are inputs, the decoder is a parameter, and a retry is the next element of the outcome sequence.
- The FedaPay widget and its `init` call. Its completion argument is an input, and widget presence is a boolean.
- The persistence webhook and its timestamp. The hand-off to `onSuccess` waits for the call to settle, which is why `App.LateApproval` exists; whether the call succeeded changes nothing, so it is a boolean input, and the record omits the date.
- Stale-result protection. The source has none: a scheduled retry is never cancelled, and React ignores updates to an unmounted view. The model does not claim such a guarantee.
- React's re-render and effect-dependency semantics. The widget gate is evaluated on demand rather than after every render. While the modal is shown the selection cannot change, so `handlePaymentSuccess` reads the current selection; a late approval carries the pass its modal was opened for.
- SuccessView.Mount: models only a fresh mount. When a late approval lands on a retrieval screen, React keeps the existing success view, so its retry count, typed id and any manual request in flight carry over into the new `fetchCode(0)` run; the model does not follow that run.
- PaymentModal.OnComplete: the model arms and completes from the modal's current form. The source never undoes an earlier `FedaPay.init`, so after the gate closes (a decline, or an edit to an email the pattern rejects) the button keeps the last arming's configuration, and its callback records that arming's form rather than the current one.
- JSON numbers are integers, rendered in plain decimal. Fractions and the exponent form of very large numbers are not modelled.
- `substring(0, 100)` and string lengths count characters, not UTF-16 code units.
- The `country` field has no input in the form, so `HandleChange` covers the six rendered inputs only.
- components/Header.tsx and components/PlanCard.tsx are presentational. Only the card's highlight test is kept, as the `highlighted` field of the `CatalogScreen` case of `App.Screen`.
- Markup, styling, the icon and colour tokens, and the static help texts.

=== FILE: app.dfy ===
/**
 * The page-level state machine: which pass is selected, whether the checkout
 * modal is open, the data of a completed purchase, and whether the manual
 * retrieval screen was requested; plus the screen those four fields select.
 */
module App {
  import opened Optional
  import opened Json
  import opened Catalog

  /** What a completed purchase hands to the success view. */
  datatype SuccessData = SuccessData(pass: Pass, transaction: Transaction)

  datatype AppState = AppState(
    selectedPass: Option<Pass>,
    isModalOpen: bool,
    successData: Option<SuccessData>,
    showManualRetrieval: bool)

  const InitialState: AppState := AppState(None, false, None, false)

  /** The placeholder transaction of the manual screen: `{ id: null }`. */
  const ManualTransaction: Transaction := Transaction(JNull, JNull)

  /** What the page renders. */
  datatype Screen =
    | Retrieval(pass: Pass, transaction: Transaction, isManualEntry: bool)
    | CatalogScreen(highlighted: Option<string>, modal: Option<Pass>)  // the id of the highlighted card; the pass of an open modal

  /**
   * Screen selection: a completed purchase wins over the manual flag, which
   * wins over the catalog; the modal appears only on the catalog, and only
   * when it is open and a pass is selected.
   */
  function CurrentScreen(s: AppState): (r: Screen)
    ensures r.Retrieval? <==> s.successData.Some? || s.showManualRetrieval
    ensures r.Retrieval? ==> (r.isManualEntry <==> s.successData.None?)
    ensures r.CatalogScreen? ==> r.modal.Some? ==> s.isModalOpen && r.modal == s.selectedPass
    ensures r.CatalogScreen? ==> (r.highlighted.Some? <==> s.selectedPass.Some?)
  {
    if s.successData.Some? then Retrieval(s.successData.value.pass, s.successData.value.transaction, false)
    else if s.showManualRetrieval then Retrieval(WifiPasses[0], ManualTransaction, true)
    else CatalogScreen(if s.selectedPass.Some? then Some(s.selectedPass.value.id) else None,
                 if s.isModalOpen && s.selectedPass.Some? then s.selectedPass else None)
  }

  /** `handleSelectPlan`: the catalog then highlights `p` under an open modal for `p`. */
  function SelectPlan(s: AppState, p: Pass): (r: AppState)
    ensures r.successData == s.successData && r.showManualRetrieval == s.showManualRetrieval
    ensures CurrentScreen(s).CatalogScreen? ==> CurrentScreen(r) == CatalogScreen(Some(p.id), Some(p))
  {
    s.(selectedPass := Some(p), isModalOpen := true)
  }

  /**
   * `handlePaymentSuccess`, as closed over a render whose selected pass was
   * `captured`: without one nothing happens; otherwise the page moves to
   * automatic retrieval for that pass and this transaction, with the modal
   * closed. The current selection is left as it is.
   */
  function PaymentSuccess(s: AppState, captured: Option<Pass>, tx: Transaction): (r: AppState)
    ensures captured.None? ==> r == s
    ensures captured.Some? ==>
              && CurrentScreen(r) == Retrieval(captured.value, tx, false)
              && !r.isModalOpen && r.selectedPass == s.selectedPass
              && r.showManualRetrieval == s.showManualRetrieval
  {
    if captured.Some? then
      s.(successData := Some(SuccessData(captured.value, tx)), isModalOpen := false)
    else s
  }

  /** `handleReset`, the success view's `onDone`: back to the unselected catalog. */
  function Reset(s: AppState): (r: AppState)
    ensures r == InitialState
    ensures CurrentScreen(r) == CatalogScreen(None, None)
  {
    s.(selectedPass := None, successData := None, isModalOpen := false, showManualRetrieval := false)
  }

  lemma ResetIdempotent(s: AppState)
    ensures Reset(Reset(s)) == Reset(s)
  {
  }

  /** The modal's `onClose`: the modal goes away but the selected card stays highlighted. */
  function CloseModal(s: AppState): (r: AppState)
    ensures r.selectedPass == s.selectedPass && r.successData == s.successData
    ensures r.showManualRetrieval == s.showManualRetrieval && !r.isModalOpen
    ensures CurrentScreen(s).CatalogScreen? ==> CurrentScreen(r) == CurrentScreen(s).(modal := None)
  {
    s.(isModalOpen := false)
  }

  /** The footer link "J'ai déjà un ID de transaction". */
  function OpenManualRetrieval(s: AppState): (r: AppState)
    ensures r.selectedPass == s.selectedPass && r.isModalOpen == s.isModalOpen && r.successData == s.successData
    ensures s.successData.None? ==> CurrentScreen(r) == Retrieval(WifiPasses[0], ManualTransaction, true)
    ensures s.successData.Some? ==> CurrentScreen(r) == CurrentScreen(s)
  {
    s.(showManualRetrieval := true)
  }

  /**
   * The controls a visitor can act on, and the two ways an approval reaches
   * the page. The modal hands an approved transaction to `onSuccess` only
   * once the persistence call has settled, so the visitor may have closed the
   * modal by then; that hand-off still lands, with the pass the modal was
   * opened for.
   */
  datatype AppEvent =
    | Choose(pass: Pass)                      // a catalog card
    | Paid(tx: Transaction)                   // `onSuccess` of the modal on screen
    | LateApproval(pass: Pass, tx: Transaction)  // `onSuccess` of a modal for `pass` closed before it landed
    | Dismiss                  // the modal's backdrop, close or cancel button
    | ManualLink               // the footer link
    | Done                     // the success view's "Retour à l'accueil"

  /**
   * The event's effect, or `None` when the current screen offers no such
   * control. The open modal's backdrop covers the page, so while it is shown
   * only its own controls can be used. A late approval can land on any
   * screen, the checkout of a modal opened later included.
   */
  function Step(s: AppState, e: AppEvent): Option<AppState> {
    var screen := CurrentScreen(s);
    match e
    case Choose(p) => if screen.CatalogScreen? && screen.modal.None? && p in WifiPasses then Some(SelectPlan(s, p)) else None
    case Paid(tx) => if screen.CatalogScreen? && screen.modal.Some? then Some(PaymentSuccess(s, s.selectedPass, tx)) else None
    case LateApproval(p, tx) =>
      if p in WifiPasses then Some(PaymentSuccess(s, Some(p), tx)) else None
    case Dismiss => if screen.CatalogScreen? && screen.modal.Some? then Some(CloseModal(s)) else None
    case ManualLink => if screen.CatalogScreen? && screen.modal.None? then Some(OpenManualRetrieval(s)) else None
    case Done => if screen.Retrieval? then Some(Reset(s)) else None
  }

  /** Applies the events in order, skipping those the screen does not offer. */
  function RunEvents(s: AppState, events: seq<AppEvent>): AppState
    decreases |events|
  {
    if |events| == 0 then s
    else RunEvents(match Step(s, events[0]) case Some(t) => t case None => s, events[1..])
  }

  /**
   * The consistency the page keeps between its four fields. A late approval
   * may deliver a pass other than the one now selected, and may land on the
   * manual screen, so a purchase is tied to the catalog only.
   */
  predicate Consistent(s: AppState) {
    && (s.isModalOpen ==> s.selectedPass.Some?)
    && (s.selectedPass.Some? ==> s.selectedPass.value in WifiPasses)
    && (s.successData.Some? ==> !s.isModalOpen && s.successData.value.pass in WifiPasses)
    && (s.showManualRetrieval ==> !s.isModalOpen)
  }

  lemma InitialStateConsistent()
    ensures Consistent(InitialState)
  {
  }

  lemma StepKeepsConsistent(s: AppState, e: AppEvent)
    requires Consistent(s) && Step(s, e).Some?
    ensures Consistent(Step(s, e).value)
  {
  }

  lemma {:induction false} RunKeepsConsistent(s: AppState, events: seq<AppEvent>)
    requires Consistent(s)
    ensures Consistent(RunEvents(s, events))
    decreases |events|
  {
    if |events| > 0 {
      if Step(s, events[0]).Some? {
        StepKeepsConsistent(s, events[0]);
      }
      RunKeepsConsistent(match Step(s, events[0]) case Some(t) => t case None => s, events[1..]);
    }
  }

  /** Every state the page reaches from its first render is consistent. */
  lemma ReachableConsistent(events: seq<AppEvent>)
    ensures Consistent(RunEvents(InitialState, events))
  {
    InitialStateConsistent();
    RunKeepsConsistent(InitialState, events);
  }

  /** In a consistent state the modal is on screen exactly when it is open. */
  lemma ModalShownIffOpen(s: AppState)
    requires Consistent(s) && CurrentScreen(s).CatalogScreen?
    ensures CurrentScreen(s).modal.Some? <==> s.isModalOpen
  {
  }

  /** The four phases of the page. */
  datatype Phase = Browsing | CheckoutActive | RetrievalAutomatic | RetrievalManual

  function PhaseOf(s: AppState): Phase {
    match CurrentScreen(s)
    case Retrieval(_, _, manual) => if manual then RetrievalManual else RetrievalAutomatic
    case CatalogScreen(_, modal) => if modal.Some? then CheckoutActive else Browsing
  }

  /**
   * The phase transitions the page can take: select a pass, pay or close
   * the modal, open the manual screen, and leave either retrieval screen;
   * and, from any phase, the jump to automatic retrieval that a late
   * approval causes.
   */
  predicate PhaseChangeAllowed(from: Phase, to: Phase) {
    || (from == Browsing && (to == CheckoutActive || to == RetrievalManual))
    || (from == CheckoutActive && (to == RetrievalAutomatic || to == Browsing))
    || ((from == RetrievalAutomatic || from == RetrievalManual) && to == Browsing)
    || to == RetrievalAutomatic
  }

  /**
   * A late approval takes the page to automatic retrieval for its own pass
   * from any screen, whatever is selected now, and closes a modal opened
   * since.
   */
  lemma LateApprovalShowsRetrieval(s: AppState, p: Pass, tx: Transaction)
    requires Consistent(s) && p in WifiPasses
    ensures Step(s, LateApproval(p, tx)).Some?
    ensures !Step(s, LateApproval(p, tx)).value.isModalOpen
    ensures CurrentScreen(Step(s, LateApproval(p, tx)).value) == Retrieval(p, tx, false)
    ensures Step(s, LateApproval(p, tx)).value.selectedPass == s.selectedPass
  {
  }

  /** Every offered event moves the page along one of the allowed phase transitions. */
  lemma StepFollowsPhases(s: AppState, e: AppEvent)
    requires Consistent(s) && Step(s, e).Some?
    ensures PhaseChangeAllowed(PhaseOf(s), PhaseOf(Step(s, e).value))
  {
  }
}

=== FILE: catalog.dfy ===
/**
 * The storefront's records and its static configuration: the pass tiers on
 * sale, the customer form, the payment status enumeration and the
 * transaction the payment widget hands back.
 */
module Catalog {
  import opened Json

  /** A purchasable tier. `price` is in CFA francs; `icon` and `color` are display tokens. */
  datatype Pass = Pass(
    id: string,
    price: int,
    displayLabel: string,  // `label` in the source; a reserved word in Dafny
    duration: string,
    dataLimit: string,
    icon: string,
    color: string)

  /** The billing and identity form of a checkout. */
  datatype CustomerInfo = CustomerInfo(
    firstname: string,
    lastname: string,
    email: string,
    phone: string,
    country: string,
    idReference: string,
    whatsappNumber: string)

  datatype PaymentStatus = Idle | Processing | Success | Error

  /**
   * The transaction object the widget passes to its completion callback.
   * Both attributes are untyped there, so they are kept as decoded values;
   * an absent attribute is `JNull`.
   */
  datatype Transaction = Transaction(id: Json, status: Json)

  const WifiPasses: seq<Pass> := [
    Pass("pass-100", 100, "Basic Pass", "3 Heures", "Illimité", "fa-bolt", "bg-blue-500"),
    Pass("pass-150", 150, "Social Pass", "8 Heures", "Illimité", "fa-users", "bg-indigo-500"),
    Pass("pass-200", 200, "Standard Pass", "12 Heures", "Illimité", "fa-wifi", "bg-purple-500"),
    Pass("pass-300", 300, "Streamer Pass", "24 Heures", "Illimité", "fa-play", "bg-pink-500"),
    Pass("pass-500", 500, "Unlimited Day", "48 Heures", "Illimité", "fa-crown", "bg-amber-500")
  ]

  const FedaPayPublicKey: string := "pk_live_MPRF2l_yxwIGWPVpR0-c3eIY"

  /** Every tier has a positive price and no two tiers share an id. */
  lemma CatalogWellFormed()
    ensures forall i :: 0 <= i < |WifiPasses| ==> WifiPasses[i].price > 0
    ensures forall i, j :: 0 <= i < j < |WifiPasses| ==> WifiPasses[i].id != WifiPasses[j].id
  {
  }
}

=== FILE: code_rules.dfy ===
/**
 * The rules the success view applies to one code-issuance response, shared
 * by its automatic and manual retrieval paths: classifying the response body,
 * extracting a candidate code from it, and accepting or rejecting the
 * candidate.
 */
module CodeRules {
  import opened Optional
  import opened Text
  import opened Json

  /** The keys probed in a keyed response, highest priority first. */
  const CodeKeys: seq<string> := ["code_wifi", "wifi_code", "code", "ticket", "wifiCode", "pin", "password"]

  /** The unsubstituted template an upstream workflow returns when it has no real code. */
  const Sentinel: string := "{{ $json.output }}"

  /** `fields[key]` exists and is truthy, so `data?.key || …` stops there. */
  predicate Hit(fields: map<string, Json>, key: string) {
    key in fields && Truthy(fields[key])
  }

  /** The position of the first key of `keys` that hits in `fields`. */
  function FirstHit(fields: map<string, Json>, keys: seq<string>): (r: Option<nat>)
    ensures r.Some? ==> r.value < |keys| && Hit(fields, keys[r.value])
    ensures forall i :: 0 <= i < |keys| && (r.None? || i < r.value) ==> !Hit(fields, keys[i])
  {
    if |keys| == 0 then None
    else if Hit(fields, keys[0]) then Some(0)
    else match FirstHit(fields, keys[1..])
      case None => None
      case Some(k) => Some(k + 1)
  }

  /** The first hit is at `k` when `keys[k]` hits and no earlier key does. */
  lemma FirstHitAt(fields: map<string, Json>, keys: seq<string>, k: nat)
    requires k < |keys| && Hit(fields, keys[k])
    requires forall j :: 0 <= j < k ==> !Hit(fields, keys[j])
    ensures FirstHit(fields, keys) == Some(k)
  {
  }

  /**
   * `extractCode`: a falsy value yields nothing; a string yields itself
   * trimmed; an array yields what its first element yields; any other value
   * yields the first truthy value among `CodeKeys`, converted to text and
   * trimmed. Numbers and booleans have none of those keys.
   */
  function ExtractCode(v: Json): (r: Option<string>)
    ensures !Truthy(v) ==> r == None
    ensures r.Some? ==> IsTrimmed(r.value)
    decreases v
  {
    if !Truthy(v) then None
    else match v
      case JString(s) => Some(Trim(s))
      case JArray(items) => if |items| == 0 then None else ExtractCode(items[0])
      case JObject(fields) =>
        (match FirstHit(fields, CodeKeys)
         case None => None
         case Some(k) => Some(Trim(ToText(fields[CodeKeys[k]]))))
      case _ => None
  }

  /** A response body after classification. */
  datatype Body = NoBody | Parsed(value: Json) | RawText(text: string)

  /**
   * A blank body is no body; otherwise the body is whatever `parse` decodes,
   * or the raw text when it does not decode. `parse` stands for `JSON.parse`,
   * with `None` for a parse that throws.
   */
  function Classify(text: string, parse: string -> Option<Json>): (b: Body)
    ensures b.NoBody? <==> AllWhitespace(text)
    ensures b.Parsed? <==> !AllWhitespace(text) && parse(text).Some?
    ensures b.Parsed? ==> parse(text) == Some(b.value)
    ensures b.RawText? ==> b.text == text
  {
    if Trim(text) == "" then NoBody
    else match parse(text)
      case Some(v) => Parsed(v)
      case None => RawText(text)
  }

  /** The value `extractCode` receives: `null`, the decoded value, or the raw text as a string. */
  function BodyValue(b: Body): Json {
    match b
    case NoBody => JNull
    case Parsed(v) => v
    case RawText(t) => JString(t)
  }

  /** The candidate code a successful response body carries. */
  function Candidate(text: string, parse: string -> Option<Json>): Option<string> {
    ExtractCode(BodyValue(Classify(text, parse)))
  }

  /** `code && code !== '{{ $json.output }}'`. */
  predicate Accepted(c: Option<string>) {
    c.Some? && c.value != "" && c.value != Sentinel
  }

  /** What one request to the code-issuance webhook came back with. */
  datatype Exchange =
    | NetworkFailure(message: string)   // `fetch` rejected; `message` is the error's text
    | Reply(status: int, body: string)

  /** `response.ok`. */
  predicate IsOk(status: int) {
    200 <= status <= 299
  }

  /** The message of the error thrown for a non-2xx reply. */
  function ServerErrorMessage(status: int, body: string): string {
    "Erreur serveur (" + IntToString(status) + "): " + Prefix(body, 100)
  }

  /** The outcome of one attempt, before either path decides what to do with it. */
  datatype Verdict = Found(code: string) | NoCode | Thrown(message: string)

  function Judge(e: Exchange, parse: string -> Option<Json>): (r: Verdict)
    ensures r.Thrown? <==> e.NetworkFailure? || !IsOk(e.status)
    ensures r.Found? ==> Accepted(Some(r.code)) && IsTrimmed(r.code)
  {
    match e
    case NetworkFailure(m) => Thrown(m)
    case Reply(status, body) =>
      if !IsOk(status) then Thrown(ServerErrorMessage(status, body))
      else
        var c := Candidate(body, parse);
        if Accepted(c) then Found(c.value) else NoCode
  }

  /**
   * A 2xx reply finds a code exactly when its body's candidate is accepted,
   * and the code found is that candidate.
   */
  lemma JudgeOkReply(status: int, body: string, parse: string -> Option<Json>)
    requires IsOk(status)
    ensures Judge(Reply(status, body), parse).Found? <==> Accepted(Candidate(body, parse))
    ensures Judge(Reply(status, body), parse).Found? ==> Candidate(body, parse) == Some(Judge(Reply(status, body), parse).code)
  {
  }

  /** A string value yields its trimmed form; the empty string yields nothing. */
  lemma ExtractFromString(s: string)
    ensures ExtractCode(JString(s)) == if s == "" then None else Some(Trim(s))
  {
  }

  /** An array yields what its first element yields; an empty array yields nothing. */
  lemma ExtractFromArray(items: seq<Json>)
    ensures ExtractCode(JArray(items)) == if |items| == 0 then None else ExtractCode(items[0])
  {
  }

  /** A bare number or boolean yields nothing, even when truthy. */
  lemma ExtractFromScalar(v: Json)
    requires v.JNumber? || v.JBool?
    ensures ExtractCode(v) == None
  {
  }

  /**
   * Key priority: when `CodeKeys[k]` is the first key that hits, the result
   * is that key's value as trimmed text, whatever the later keys hold.
   */
  lemma ExtractKeyPriority(fields: map<string, Json>, k: nat)
    requires k < |CodeKeys| && Hit(fields, CodeKeys[k])
    requires forall j :: 0 <= j < k ==> !Hit(fields, CodeKeys[j])
    ensures ExtractCode(JObject(fields)) == Some(Trim(ToText(fields[CodeKeys[k]])))
  {
    FirstHitAt(fields, CodeKeys, k);
  }

  /** An object in which no probed key hits yields nothing. */
  lemma ExtractNoKey(fields: map<string, Json>)
    requires forall j :: 0 <= j < |CodeKeys| ==> !Hit(fields, CodeKeys[j])
    ensures ExtractCode(JObject(fields)) == None
  {
    assert FirstHit(fields, CodeKeys).None?;
  }

  /**
   * A whitespace-only string under a higher-priority key shadows every later
   * key: the candidate is the empty string, which is never accepted.
   */
  lemma BlankKeyShadows(fields: map<string, Json>, k: nat)
    requires k < |CodeKeys| && CodeKeys[k] in fields
    requires fields[CodeKeys[k]].JString? && fields[CodeKeys[k]].s != ""
    requires AllWhitespace(fields[CodeKeys[k]].s)
    requires forall j :: 0 <= j < k ==> !Hit(fields, CodeKeys[j])
    ensures ExtractCode(JObject(fields)) == Some("")
    ensures !Accepted(ExtractCode(JObject(fields)))
  {
    ExtractKeyPriority(fields, k);
  }

  /**
   * The sentinel is rejected however it arrives: as a string, padded with
   * whitespace, inside a one-element array, or under any probed key.
   */
  lemma SentinelRejected(s: string)
    requires Trim(s) == Sentinel
    ensures !Accepted(ExtractCode(JString(s)))
    ensures !Accepted(ExtractCode(JArray([JString(s)])))
    ensures forall k :: 0 <= k < |CodeKeys| ==> !Accepted(ExtractCode(JObject(map[CodeKeys[k] := JString(s)])))
  {
    forall k | 0 <= k < |CodeKeys|
      ensures !Accepted(ExtractCode(JObject(map[CodeKeys[k] := JString(s)])))
    {
      var fields := map[CodeKeys[k] := JString(s)];
      forall j | 0 <= j < k
        ensures !Hit(fields, CodeKeys[j])
      {
        assert CodeKeys[j] != CodeKeys[k];
      }
      ExtractKeyPriority(fields, k);
    }
  }

  /**
   * A 2xx reply whose body is the sentinel is "no code", whether the body is
   * the bare template (which does not decode) or a JSON string holding it.
   */
  lemma SentinelReplyIsNoCode(status: int, parse: string -> Option<Json>)
    requires IsOk(status)
    requires parse(Sentinel) == None
    ensures Judge(Reply(status, Sentinel), parse) == NoCode
    ensures forall body :: parse(body) == Some(JString(Sentinel)) ==> Judge(Reply(status, body), parse) == NoCode
  {
    TrimmedIsFixed(Sentinel);
    assert Classify(Sentinel, parse) == RawText(Sentinel);
    forall body | parse(body) == Some(JString(Sentinel))
      ensures Judge(Reply(status, body), parse) == NoCode
    {
      if AllWhitespace(body) {
        assert Classify(body, parse) == NoBody;
      } else {
        assert Classify(body, parse) == Parsed(JString(Sentinel));
      }
    }
  }

  /** A body that decodes to a number or a boolean, such as `123456`, carries no code. */
  lemma ScalarReplyIsNoCode(status: int, body: string, parse: string -> Option<Json>)
    requires IsOk(status)
    requires parse(body).Some? && (parse(body).value.JNumber? || parse(body).value.JBool?)
    ensures Judge(Reply(status, body), parse) == NoCode
  {
  }

  /** A blank 2xx body is "no code" whatever `parse` would make of it. */
  lemma BlankReplyIsNoCode(status: int, body: string, parse: string -> Option<Json>)
    requires IsOk(status) && AllWhitespace(body)
    ensures Judge(Reply(status, body), parse) == NoCode
  {
  }
}

=== FILE: json.dfy ===
/**
 * The values a webhook response can decode to, as JavaScript sees them after
 * `JSON.parse`, together with the two JavaScript conversions the storefront
 * applies to them: truthiness (`if (x)`, `x || y`) and `String(x)`.
 */
module Json {
  import opened Text

  /**
   * A decoded JSON value. Numbers are integers here; an object is a map from
   * key to value (for duplicate keys `JSON.parse` keeps the last one).
   */
  datatype Json =
    | JNull
    | JBool(b: bool)
    | JNumber(n: int)
    | JString(s: string)
    | JArray(items: seq<Json>)
    | JObject(fields: map<string, Json>)

  /** JavaScript truthiness: `null`, `false`, `0` and `""` are falsy; arrays and objects never are. */
  predicate Truthy(v: Json) {
    match v
    case JNull => false
    case JBool(b) => b
    case JNumber(n) => n != 0
    case JString(s) => s != ""
    case JArray(_) => true
    case JObject(_) => true
  }

  /** Joins `parts` with `sep` between consecutive elements, as `Array.prototype.join`. */
  function Join(parts: seq<string>, sep: string): string {
    if |parts| == 0 then ""
    else if |parts| == 1 then parts[0]
    else parts[0] + sep + Join(parts[1..], sep)
  }

  /**
   * `String(v)`: the text JavaScript produces when converting `v`. An array
   * is its elements joined with commas, with `null` elements rendered empty;
   * every plain object renders as `[object Object]`.
   */
  function ToText(v: Json): (r: string)
    ensures v.JString? ==> r == v.s
    ensures v.JNumber? || v.JBool? ==> r != [] && NoWhitespace(r)
    decreases v
  {
    match v
    case JNull => "null"
    case JBool(b) => if b then "true" else "false"
    case JNumber(n) => IntToString(n)
    case JString(s) => s
    case JArray(items) =>
      Join(seq(|items|, i requires 0 <= i < |items| =>
             if items[i].JNull? then "" else ToText(items[i])), ",")
    case JObject(_) => "[object Object]"
  }
}

=== FILE: option.dfy ===
/** The optional value used throughout the model in place of JavaScript's `null`. */
module Optional {

  datatype Option<+T> = None | Some(value: T)
}

=== FILE: payment_modal.dfy ===
/**
 * The checkout modal: the customer form, its two validity tests, the gate
 * that arms the payment widget, the widget's completion callback and the
 * field-edit handler. The widget itself is outside the model; its
 * completion callback's argument is an input.
 */
module PaymentModal {
  import opened Optional
  import opened Text
  import opened Json
  import opened Catalog

  /** `\S+`: a non-empty run of non-whitespace characters. */
  predicate NonBlankRun(t: string) {
    |t| > 0 && NoWhitespace(t)
  }

  /** `s` splits as `\S+` `@` `\S+` `.` `\S+` with the `@` at `i` and the `.` at `j`. */
  predicate SplitsAsEmail(s: string, i: nat, j: nat) {
    && i < j < |s|
    && NonBlankRun(s[..i]) && s[i] == '@'
    && NonBlankRun(s[i + 1..j]) && s[j] == '.'
    && NonBlankRun(s[j + 1..])
  }

  /** The language of the regular expression `^\S+@\S+\.\S+$`. */
  ghost predicate EmailRegex(s: string) {
    exists i: nat, j: nat :: SplitsAsEmail(s, i, j)
  }

  /**
   * The same language by positions: no whitespace anywhere, an `@` after the
   * first character, and a `.` at least two places after it and at least two
   * places before the end.
   */
  predicate EmailShaped(s: string) {
    && NoWhitespace(s)
    && exists i, j | 0 <= i < j < |s| :: 1 <= i && i + 2 <= j && j + 2 <= |s| && s[i] == '@' && s[j] == '.'
  }

  lemma EmailShapedIsRegex(s: string)
    ensures EmailShaped(s) <==> EmailRegex(s)
  {
    if EmailShaped(s) {
      var i, j :| 0 <= i < j < |s| && 1 <= i && i + 2 <= j && j + 2 <= |s| && s[i] == '@' && s[j] == '.';
      assert SplitsAsEmail(s, i, j);
    }
    if EmailRegex(s) {
      var i: nat, j: nat :| SplitsAsEmail(s, i, j);
      assert !IsWhitespace('@') && !IsWhitespace('.');
      forall m | 0 <= m < |s|
        ensures !IsWhitespace(s[m])
      {
        if m < i {
          assert s[m] == s[..i][m];
        } else if i < m < j {
          assert s[m] == s[i + 1..j][m - i - 1];
        } else if j < m {
          assert s[m] == s[j + 1..][m - j - 1];
        }
      }
      assert 1 <= i && i + 2 <= j && j + 2 <= |s|;
    }
  }

  /**
   * A single left-to-right scan deciding the email regular expression: it
   * tracks whether whitespace was seen, the first `@` after position 0 and
   * the last `.` that has two characters after it.
   */
  method MatchEmail(s: string) returns (ok: bool)
    ensures ok <==> EmailRegex(s)
  {
    var clean := true;
    var at := -1;
    var dot := -1;
    var k := 0;
    while k < |s|
      invariant 0 <= k <= |s|
      invariant clean <==> NoWhitespace(s[..k])
      invariant at == -1 ==> forall i :: 1 <= i < k ==> s[i] != '@'
      invariant at != -1 ==> 1 <= at < k && s[at] == '@' && forall i :: 1 <= i < at ==> s[i] != '@'
      invariant dot == -1 ==> forall i :: 0 <= i < k && i + 2 <= |s| ==> s[i] != '.'
      invariant dot != -1 ==> 0 <= dot < k && dot + 2 <= |s| && s[dot] == '.'
                               && forall i :: dot < i < k && i + 2 <= |s| ==> s[i] != '.'
    {
      assert s[..k + 1] == s[..k] + [s[k]];
      if IsWhitespace(s[k]) {
        clean := false;
      }
      if s[k] == '@' && k >= 1 && at == -1 {
        at := k;
      }
      if s[k] == '.' && k + 2 <= |s| {
        dot := k;
      }
      k := k + 1;
    }
    assert s[..k] == s;
    ok := clean && at != -1 && dot != -1 && at + 2 <= dot;
    if ok {
      assert 0 <= at < dot < |s|;
    }
    EmailShapedIsRegex(s);
  }

  /** The five conditions both validity tests share: everything but the email. */
  predicate OtherFieldsFilled(f: CustomerInfo) {
    && Trim(f.firstname) != ""
    && Trim(f.lastname) != ""
    && |f.phone| == 8
    && Trim(f.idReference) != ""
    && |Trim(f.whatsappNumber)| >= 8
  }

  /** `isFormValid`: the test that gates widget initialisation. */
  predicate IsFormValid(f: CustomerInfo) {
    OtherFieldsFilled(f) && EmailShaped(f.email)
  }

  /** `isButtonDisabled`: its email test only looks for an `@`. */
  predicate IsButtonDisabled(f: CustomerInfo) {
    !(OtherFieldsFilled(f) && '@' in f.email)
  }

  /** A form that passes the gate's test also enables the pay button. */
  lemma ValidFormEnablesButton(f: CustomerInfo)
    requires IsFormValid(f)
    ensures !IsButtonDisabled(f)
  {
    var i, j :| 0 <= i < j < |f.email| && 1 <= i && i + 2 <= j && j + 2 <= |f.email| && f.email[i] == '@' && f.email[j] == '.';
    assert f.email[i] in f.email;
  }

  /** The phone test counts characters only: any 8 characters pass, spaces and letters included. */
  lemma PhoneIsLengthOnly(f: CustomerInfo, p: string)
    requires |p| == |f.phone|
    ensures IsFormValid(f.(phone := p)) == IsFormValid(f)
    ensures IsButtonDisabled(f.(phone := p)) == IsButtonDisabled(f)
  {
  }

  datatype Modal = Modal(form: CustomerInfo, status: PaymentStatus, error: Option<string>)

  const InitialForm: CustomerInfo := CustomerInfo("", "", "", "", "BJ", "", "")
  const InitialModal: Modal := Modal(InitialForm, Idle, None)

  /** The modal opens with an empty form that neither test accepts. */
  lemma InitialModalIsBlocked()
    ensures !IsFormValid(InitialModal.form) && IsButtonDisabled(InitialModal.form)
    ensures InitialModal.status == Idle && InitialModal.error.None?
  {
  }

  /** The widget's customer block. */
  datatype Customer = Customer(firstname: string, lastname: string, email: string, phoneNumber: string, country: string)

  /** The configuration passed to `FedaPay.init`. */
  datatype CheckoutConfig = CheckoutConfig(publicKey: string, amount: int, description: string, customer: Customer)

  const DescriptionHead: string := "WiFi Fina Digital: "
  const IdTag: string := " | ID: "
  const WhatsappTag: string := " | WA: "

  function Description(pass: Pass, f: CustomerInfo): string {
    DescriptionHead + pass.displayLabel + IdTag + f.idReference + WhatsappTag + f.whatsappNumber
  }

  /**
   * The description reads back as its five parts: the head and label, the
   * `ID` tag, the id reference, the `WA` tag and the WhatsApp number, each at
   * its own offset, and nothing else.
   */
  lemma DescriptionShape(pass: Pass, f: CustomerInfo)
    ensures var d := Description(pass, f);
            var i := |DescriptionHead| + |pass.displayLabel|;
            var j := i + |IdTag| + |f.idReference|;
            && |d| == j + |WhatsappTag| + |f.whatsappNumber|
            && d[..i] == DescriptionHead + pass.displayLabel
            && d[i..i + |IdTag|] == IdTag
            && d[i + |IdTag|..j] == f.idReference
            && d[j..j + |WhatsappTag|] == WhatsappTag
            && d[j + |WhatsappTag|..] == f.whatsappNumber
  {
    var a := DescriptionHead + pass.displayLabel;
    var d := Description(pass, f);
    var i := |a|;
    var j := i + |IdTag| + |f.idReference|;
    assert d == a + IdTag + f.idReference + WhatsappTag + f.whatsappNumber;
    assert d[..i] == a;
    assert d[i..i + |IdTag|] == IdTag;
    assert d[i + |IdTag|..j] == f.idReference;
    assert d[j..j + |WhatsappTag|] == WhatsappTag;
    assert d[j + |WhatsappTag|..] == f.whatsappNumber;
  }

  /**
   * The effect that arms the widget: it runs only when the widget script is
   * present, the form passes `isFormValid` and the status is idle, and then
   * charges the pass price with the customer's own details.
   */
  function InitCheckout(widgetPresent: bool, m: Modal, pass: Pass): (r: Option<CheckoutConfig>)
    ensures r.Some? <==> widgetPresent && IsFormValid(m.form) && m.status == Idle
    ensures r.Some? ==> r.value.amount == pass.price && r.value.publicKey == FedaPayPublicKey
    ensures r.Some? ==>
              r.value.customer == Customer(m.form.firstname, m.form.lastname, m.form.email, m.form.phone, m.form.country)
    ensures r.Some? ==>
              r.value.description == "WiFi Fina Digital: " + pass.displayLabel + " | ID: " + m.form.idReference
                                      + " | WA: " + m.form.whatsappNumber
  {
    if widgetPresent && IsFormValid(m.form) && m.status == Idle then
      var f := m.form;
      var d := Description(pass, f);
      Some(CheckoutConfig(FedaPayPublicKey, pass.price, d,
                          Customer(f.firstname, f.lastname, f.email, f.phone, f.country)))
    else None
  }

  /** The record sent to the persistence webhook (its timestamp is external and left out). */
  datatype SaleRecord = SaleRecord(
    firstname: string, lastname: string, email: string, phone: string,
    idReference: string, whatsappNumber: string,
    transactionId: Json, amount: int, plan: string)

  /** What a completion callback does: the modal's new state, the transactions handed to `onSuccess`, the record saved. */
  datatype Completion = Completion(modal: Modal, delivered: seq<Transaction>, saved: Option<SaleRecord>)

  const DeclinedMessage: string := "Le paiement n'a pas pu être validé."

  /** `response && response.transaction && response.transaction.status === s`; `None` stands for a falsy response or transaction. */
  predicate HasStatus(response: Option<Transaction>, s: string) {
    response.Some? && response.value.status == JString(s)
  }

  /**
   * `onComplete`. `persisted` says whether the best-effort call to the
   * persistence webhook succeeded; the outcome does not depend on it.
   */
  function OnComplete(m: Modal, pass: Pass, response: Option<Transaction>, persisted: bool): (c: Completion)
    // approved: the transaction reaches `onSuccess` exactly once and the sale is recorded
    ensures HasStatus(response, "approved") ==>
              && c.delivered == [response.value] && c.modal == m
              && c.saved == Some(SaleRecord(m.form.firstname, m.form.lastname, m.form.email, m.form.phone,
                                            m.form.idReference, m.form.whatsappNumber,
                                            response.value.id, pass.price, pass.displayLabel))
    ensures !HasStatus(response, "approved") ==> c.delivered == [] && c.saved.None?
    // canceled: back to idle, the error text left as it was
    ensures HasStatus(response, "canceled") ==> c.modal == m.(status := Idle)
    // anything else, a missing transaction included: the declined error
    ensures !HasStatus(response, "approved") && !HasStatus(response, "canceled") ==>
              c.modal == m.(status := Error, error := Some(DeclinedMessage))
  {
    if HasStatus(response, "approved") then
      var f := m.form;
      var record := SaleRecord(f.firstname, f.lastname, f.email, f.phone, f.idReference, f.whatsappNumber,
                               response.value.id, pass.price, pass.displayLabel);
      Completion(m, [response.value], Some(record))
    else if HasStatus(response, "canceled") then
      Completion(m.(status := Idle), [], None)
    else
      Completion(m.(status := Error, error := Some(DeclinedMessage)), [], None)
  }

  /** A failed persistence call changes nothing the visitor sees. */
  lemma OnCompleteIgnoresPersistence(m: Modal, pass: Pass, response: Option<Transaction>)
    ensures OnComplete(m, pass, response, true) == OnComplete(m, pass, response, false)
  {
  }

  /** The form's editable inputs, by their `name` attribute. */
  datatype Field = FirstName | LastName | Email | Phone | IdReference | WhatsappNumber

  function FieldValue(f: CustomerInfo, field: Field): string {
    match field
    case FirstName => f.firstname
    case LastName => f.lastname
    case Email => f.email
    case Phone => f.phone
    case IdReference => f.idReference
    case WhatsappNumber => f.whatsappNumber
  }

  /**
   * `handleChange`: stores the new value in the named field only and re-arms
   * an errored form; the error text stays.
   */
  function HandleChange(m: Modal, field: Field, value: string): (r: Modal)
    ensures FieldValue(r.form, field) == value
    ensures forall g :: g != field ==> FieldValue(r.form, g) == FieldValue(m.form, g)
    ensures r.form.country == m.form.country
    ensures m.status == Error ==> r.status == Idle
    ensures m.status != Error ==> r.status == m.status
    ensures r.error == m.error
  {
    var f := m.form;
    var f' := match field
      case FirstName => f.(firstname := value)
      case LastName => f.(lastname := value)
      case Email => f.(email := value)
      case Phone => f.(phone := value)
      case IdReference => f.(idReference := value)
      case WhatsappNumber => f.(whatsappNumber := value);
    Modal(f', if m.status == Error then Idle else m.status, m.error)
  }

  /** What can happen to an open modal. */
  datatype ModalEvent = Edit(field: Field, value: string) | Complete(response: Option<Transaction>, persisted: bool)

  function ModalStep(m: Modal, pass: Pass, e: ModalEvent): Modal {
    match e
    case Edit(field, value) => HandleChange(m, field, value)
    case Complete(response, persisted) => OnComplete(m, pass, response, persisted).modal
  }

  function RunModal(m: Modal, pass: Pass, events: seq<ModalEvent>): Modal
    decreases |events|
  {
    if |events| == 0 then m else RunModal(ModalStep(m, pass, events[0]), pass, events[1..])
  }

  /** Starting from idle or error, the status never takes any value other than those two. */
  lemma {:induction false} StatusIsIdleOrError(m: Modal, pass: Pass, events: seq<ModalEvent>)
    requires m.status == Idle || m.status == Error
    ensures RunModal(m, pass, events).status == Idle || RunModal(m, pass, events).status == Error
    decreases |events|
  {
    if |events| > 0 {
      StatusIsIdleOrError(ModalStep(m, pass, events[0]), pass, events[1..]);
    }
  }

  /**
   * After a declined payment the gate does not call `init` again until the
   * visitor edits a field; after the edit, only the form's validity decides.
   * An earlier `init` is not undone.
   */
  lemma DeclineBlocksReinitUntilEdit(m: Modal, pass: Pass, response: Option<Transaction>, persisted: bool,
                                     widgetPresent: bool, field: Field, value: string)
    requires !HasStatus(response, "approved") && !HasStatus(response, "canceled")
    ensures var after := OnComplete(m, pass, response, persisted).modal;
            && InitCheckout(widgetPresent, after, pass).None?
            && (InitCheckout(widgetPresent, HandleChange(after, field, value), pass).Some?
                <==> widgetPresent && IsFormValid(HandleChange(after, field, value).form))
  {
  }

  /**
   * The two tests differ: with the email `a@b` the pay button is enabled
   * while the gate does not arm the widget for this form.
   */
  lemma ButtonEnabledWithoutGate(pass: Pass)
    ensures var f := CustomerInfo("Jean", "Dupont", "a@b", "90909090", "BJ", "1029384756", "97000000");
            !IsButtonDisabled(f) && !IsFormValid(f) && InitCheckout(true, Modal(f, Idle, None), pass).None?
  {
    var f := CustomerInfo("Jean", "Dupont", "a@b", "90909090", "BJ", "1029384756", "97000000");
    SampleFieldsFilled(f);
    assert f.email[1] == '@';
    ShortEmailNotShaped(f.email);
  }

  /** Every text the email pattern accepts has at least five characters. */
  lemma ShortEmailNotShaped(s: string)
    requires |s| < 5
    ensures !EmailShaped(s)
  {
  }

  lemma SampleFieldsFilled(f: CustomerInfo)
    requires f == CustomerInfo("Jean", "Dupont", "a@b", "90909090", "BJ", "1029384756", "97000000")
    ensures OtherFieldsFilled(f)
  {
    SampleInputsVisible();
    VisibleAsciiIsTrimmed("Jean");
    VisibleAsciiIsTrimmed("Dupont");
    VisibleAsciiIsTrimmed("1029384756");
    VisibleAsciiIsTrimmed("97000000");
  }

  lemma SampleInputsVisible()
    ensures VisibleAscii("Jean") && VisibleAscii("Dupont")
    ensures VisibleAscii("1029384756") && VisibleAscii("97000000")
  {
  }
}

=== FILE: scenarios.dfy ===
/**
 * End-to-end runs of the storefront, from the catalog through checkout to
 * the code on screen, with the webhook's replies and the JSON decoder given
 * as inputs.
 */
module Scenarios {
  import opened Optional
  import opened Text
  import opened Json
  import opened Catalog
  import opened CodeRules
  import opened SuccessView
  import opened PaymentModal
  import opened App

  const SampleForm: CustomerInfo :=
    CustomerInfo("Jean", "Dupont", "jean@exemple.com", "90909090", "BJ", "1029384756", "97000000")

  lemma SampleFormIsValid()
    ensures IsFormValid(SampleForm)
  {
    SampleNamesFilled();
    SampleContactsFilled();
    SampleEmailShaped();
  }

  lemma SampleTextsVisible()
    ensures VisibleAscii(SampleForm.firstname) && VisibleAscii(SampleForm.lastname)
    ensures VisibleAscii(SampleForm.email)
    ensures VisibleAscii(SampleForm.idReference) && VisibleAscii(SampleForm.whatsappNumber)
  {
  }

  lemma SampleNamesFilled()
    ensures Trim(SampleForm.firstname) != "" && Trim(SampleForm.lastname) != ""
  {
    SampleTextsVisible();
    VisibleAsciiIsTrimmed(SampleForm.firstname);
    VisibleAsciiIsTrimmed(SampleForm.lastname);
  }

  lemma SampleContactsFilled()
    ensures Trim(SampleForm.idReference) != "" && |Trim(SampleForm.whatsappNumber)| >= 8
  {
    SampleTextsVisible();
    VisibleAsciiIsTrimmed(SampleForm.idReference);
    VisibleAsciiIsTrimmed(SampleForm.whatsappNumber);
  }

  lemma SampleEmailShaped()
    ensures EmailShaped(SampleForm.email)
  {
    SampleTextsVisible();
    VisibleAsciiIsTrimmed(SampleForm.email);
    EmailShapedAt(SampleForm.email, 4, 12);
  }

  /** A text without whitespace with an `@` at `i` and a `.` at `j`, suitably spaced, is email-shaped. */
  lemma EmailShapedAt(s: string, i: nat, j: nat)
    requires NoWhitespace(s) && 1 <= i && i + 2 <= j && j + 2 <= |s|
    requires s[i] == '@' && s[j] == '.'
    ensures EmailShaped(s)
  {
  }

  /**
   * A 2xx reply that decodes to an object holding a trimmed `code`
   * under the single key `CodeKeys[k]` finds that code.
   */
  lemma KeyedReplyFinds(status: int, body: string, parse: string -> Option<Json>, k: nat, code: string)
    requires IsOk(status) && !AllWhitespace(body) && k < |CodeKeys|
    requires parse(body) == Some(JObject(map[CodeKeys[k] := JString(code)]))
    requires IsTrimmed(code) && code != "" && code != Sentinel
    ensures Judge(Reply(status, body), parse) == Found(code)
  {
    var fields := map[CodeKeys[k] := JString(code)];
    forall j | 0 <= j < k
      ensures !Hit(fields, CodeKeys[j])
    {
      assert CodeKeys[j] != CodeKeys[k];
    }
    ExtractKeyPriority(fields, k);
    TrimmedIsFixed(code);
    assert Classify(body, parse) == Parsed(JObject(fields));
  }

  /** Choosing the 150 CFA pass on the fresh catalog highlights its card under an open modal. */
  lemma ChooseSecondPass()
    ensures CurrentScreen(SelectPlan(InitialState, WifiPasses[1])) == CatalogScreen(Some("pass-150"), Some(WifiPasses[1]))
  {
  }

  /** With the sample form an idle modal arms the widget for any pass, at that pass's price. */
  lemma SampleCheckoutArms(pass: Pass)
    ensures InitCheckout(true, Modal(SampleForm, Idle, None), pass).Some?
    ensures InitCheckout(true, Modal(SampleForm, Idle, None), pass).value.amount == pass.price
  {
    SampleFormIsValid();
  }

  /**
   * The 150 CFA pass is bought with a valid form, the widget approves
   * transaction `TX1`, and the first reply carries `code_wifi`: the code is
   * on screen after a single request.
   */
  lemma ScenarioFirstReplyCarriesCode(body: string, parse: string -> Option<Json>)
    requires parse(body) == Some(JObject(map["code_wifi" := JString("A1B2C3")]))
    requires !AllWhitespace(body)
    ensures var pass := WifiPasses[1];
            var s1 := SelectPlan(InitialState, pass);
            var m := Modal(SampleForm, Idle, None);
            var tx := Transaction(JString("TX1"), JString("approved"));
            var c := OnComplete(m, pass, Some(tx), false);
            var s2 := PaymentSuccess(s1, s1.selectedPass, tx);
            var run := Mount(tx, false, [Reply(200, body)], parse);
            && CurrentScreen(s1) == CatalogScreen(Some("pass-150"), Some(pass))
            && InitCheckout(true, m, pass).Some? && InitCheckout(true, m, pass).value.amount == 150
            && c.delivered == [tx]
            && CurrentScreen(s2) == Retrieval(pass, tx, false)
            && run.requests == ["TX1"]
            && run.view.wifiCode == Some("A1B2C3") && run.view.retryCount == 0
            && CurrentPanel(run.view) == Ticket(Some("A1B2C3"), true)
  {
    var pass := WifiPasses[1];
    var tx := Transaction(JString("TX1"), JString("approved"));
    ChooseSecondPass();
    SecondPassCheckout(tx);
    PaidSecondPass(tx);
    FirstReplyShowsCode(tx, body, parse);
  }

  lemma SecondPassCheckout(tx: Transaction)
    requires tx.status == JString("approved")
    ensures var m := Modal(SampleForm, Idle, None);
            && InitCheckout(true, m, WifiPasses[1]).Some? && InitCheckout(true, m, WifiPasses[1]).value.amount == 150
            && OnComplete(m, WifiPasses[1], Some(tx), false).delivered == [tx]
  {
    SampleCheckoutArms(WifiPasses[1]);
    SecondPassPrice();
    ApprovedDelivers(Modal(SampleForm, Idle, None), WifiPasses[1], tx);
  }

  lemma SecondPassPrice()
    ensures WifiPasses[1].price == 150
  {
  }

  /** An approved transaction reaches `onSuccess`, whatever the modal and the pass. */
  lemma ApprovedDelivers(m: Modal, pass: Pass, tx: Transaction)
    requires tx.status == JString("approved")
    ensures OnComplete(m, pass, Some(tx), false).delivered == [tx]
  {
    assert HasStatus(Some(tx), "approved");
  }

  /** Paying for the chosen pass moves the page to its automatic retrieval screen. */
  lemma PaidSecondPass(tx: Transaction)
    ensures var s1 := SelectPlan(InitialState, WifiPasses[1]);
            CurrentScreen(PaymentSuccess(s1, s1.selectedPass, tx)) == Retrieval(WifiPasses[1], tx, false)
  {
  }

  lemma FirstReplyShowsCode(tx: Transaction, body: string, parse: string -> Option<Json>)
    requires tx.id == JString("TX1")
    requires parse(body) == Some(JObject(map["code_wifi" := JString("A1B2C3")]))
    requires !AllWhitespace(body)
    ensures var run := Mount(tx, false, [Reply(200, body)], parse);
            && run.requests == ["TX1"]
            && run.view.wifiCode == Some("A1B2C3") && run.view.retryCount == 0
            && CurrentPanel(run.view) == Ticket(Some("A1B2C3"), true)
  {
    assert CodeKeys[0] == "code_wifi";
    KeyedReplyFinds(200, body, parse, 0, "A1B2C3");
    var outcomes := [Reply(200, body)];
    assert FirstFound(outcomes, parse, 3) == Some(0);
    FetchCodeFinds(InitialView(tx, false), tx, 0, outcomes, parse);
    var run := Mount(tx, false, outcomes, parse);
    assert run.requests[0] == IdText(tx.id) == "TX1";
  }

  /**
   * Two empty replies, then `wifi_code`: the code arrives on the third
   * request, after exactly two scheduled retries.
   */
  lemma ScenarioThirdReplyCarriesCode(tx: Transaction, body: string, parse: string -> Option<Json>)
    requires Truthy(tx.id)
    requires parse(body) == Some(JObject(map["wifi_code" := JString("Z9Z9")]))
    requires !AllWhitespace(body)
    ensures var run := Mount(tx, false, [Reply(200, ""), Reply(200, ""), Reply(200, body)], parse);
            && |run.requests| == 3
            && run.view.wifiCode == Some("Z9Z9") && run.view.retryCount == 2 && !run.view.loading
  {
    assert CodeKeys[1] == "wifi_code";
    KeyedReplyFinds(200, body, parse, 1, "Z9Z9");
    BlankReplyIsNoCode(200, "", parse);
    var outcomes := [Reply(200, ""), Reply(200, ""), Reply(200, body)];
    assert outcomes[0] == outcomes[1] == Reply(200, "") && outcomes[2] == Reply(200, body);
    assert FirstFound(outcomes, parse, 3) == Some(2);
    FetchCodeFinds(InitialView(tx, false), tx, 0, outcomes, parse);
  }

  /**
   * Every reply is a 500: after the third request the error is reported
   * and the page offers manual retrieval.
   */
  lemma ScenarioServerAlwaysFails(tx: Transaction, body: string, parse: string -> Option<Json>)
    requires Truthy(tx.id)
    ensures var run := Mount(tx, false, [Reply(500, body), Reply(500, body), Reply(500, body)], parse);
            var message := ConnectionMessage(ServerErrorMessage(500, body));
            && |run.requests| == 3 && !run.view.loading && run.view.wifiCode.None?
            && run.view.error == Some(message)
            && CurrentPanel(run.view) == Trouble(message)
  {
    ServerFailsThrice(tx, 500, body, parse);
  }

  /** Three replies with the same non-2xx status end in the connection error, shown on the error box. */
  lemma ServerFailsThrice(tx: Transaction, status: int, body: string, parse: string -> Option<Json>)
    requires Truthy(tx.id) && !IsOk(status)
    ensures var run := Mount(tx, false, [Reply(status, body), Reply(status, body), Reply(status, body)], parse);
            var message := ConnectionMessage(ServerErrorMessage(status, body));
            && |run.requests| == 3 && !run.view.loading && run.view.wifiCode.None?
            && run.view.error == Some(message)
            && CurrentPanel(run.view) == Trouble(message)
  {
    var outcomes := [Reply(status, body), Reply(status, body), Reply(status, body)];
    var m := ServerErrorMessage(status, body);
    assert Judge(Reply(status, body), parse) == Thrown(m);
    assert forall k :: 0 <= k < 3 ==> outcomes[k] == Reply(status, body);
    FetchCodeGivesUp(InitialView(tx, false), tx, 0, outcomes, parse);
    assert |ConnectionMessage(m)| > 0;
  }

  /**
   * Manual mode, identifier `TX2`, and the webhook answers with the bare
   * sentinel: "not found" is shown after one request, and the visitor can
   * correct the identifier and send one new request.
   */
  lemma ScenarioManualSentinel(parse: string -> Option<Json>, retry: string)
    requires parse(Sentinel) == None
    requires Trim(retry) != ""
    ensures var s := Step(InitialState, ManualLink);
            var v := EditManualId(InitialView(ManualTransaction, true), "TX2");
            var r := FetchManualCode(v, Some(Reply(200, Sentinel)), parse);
            var again := EditManualId(r.view, retry);
            && s.Some? && CurrentScreen(s.value) == Retrieval(WifiPasses[0], ManualTransaction, true)
            && r.requests == ["TX2"]
            && CurrentPanel(r.view) == Trouble(NotFoundMessage)
            && ManualButtonEnabled(again)
            && FetchManualCode(again, None, parse).requests == [Trim(retry)]
  {
    ManualLinkOpens();
    var v := EditManualId(InitialView(ManualTransaction, true), "TX2");
    ManualSentinelNotFound(v, parse);
    var r := FetchManualCode(v, Some(Reply(200, Sentinel)), parse);
    EnabledButtonSendsOnce(EditManualId(r.view, retry), None, parse);
  }

  /** The footer link on the fresh catalog opens the manual screen. */
  lemma ManualLinkOpens()
    ensures var s := Step(InitialState, ManualLink);
            s.Some? && CurrentScreen(s.value) == Retrieval(WifiPasses[0], ManualTransaction, true)
  {
  }

  lemma ManualSentinelNotFound(v: View, parse: string -> Option<Json>)
    requires v == EditManualId(InitialView(ManualTransaction, true), "TX2")
    requires parse(Sentinel) == None
    ensures var r := FetchManualCode(v, Some(Reply(200, Sentinel)), parse);
            && r.requests == ["TX2"] && !r.view.manualLoading
            && CurrentPanel(r.view) == Trouble(NotFoundMessage)
  {
    VisibleAsciiIsTrimmed("TX2");
    SentinelReplyIsNoCode(200, parse);
    ManualPanel(v, Reply(200, Sentinel), parse);
  }
}

=== FILE: success_view.dfy ===
/**
 * The success view's state and its two retrieval procedures. The automatic
 * procedure asks the code-issuance webhook for the code of a just-paid
 * transaction, retrying on any failure until attempt index 2; the manual
 * procedure sends one request for an identifier the visitor typed. Each
 * request's outcome is an input, so a run is a function of the sequence of
 * outcomes the webhook produces.
 */
module SuccessView {
  import opened Optional
  import opened Text
  import opened Json
  import opened Catalog
  import opened CodeRules

  /** The component's state variables. */
  datatype View = View(
    wifiCode: Option<string>,
    loading: bool,
    error: Option<string>,
    retryCount: nat,
    manualId: string,
    manualLoading: bool,
    manualError: Option<string>)

  const ManualPrompt: string := "Entrez votre ID de transaction pour récupérer votre code Wi-Fi."
  const MissingIdMessage: string := "Veuillez entrer un ID de transaction."
  const NoCodeMessage: string :=
    "Le serveur n'a pas pu générer un code WiFi pour le moment. Veuillez vérifier la configuration de votre workflow n8n ou essayer la récupération manuelle."
  const NotFoundMessage: string :=
    "Aucun code WiFi trouvé pour cet ID de transaction. Vérifiez l'ID ou attendez quelques instants si le paiement est récent."

  function ConnectionMessage(m: string): string {
    "Erreur de connexion : " + m + ". Veuillez vérifier votre connexion ou essayer la récupération manuelle."
  }

  function ManualErrorMessage(m: string): string {
    "Erreur : " + m
  }

  /** The index of the last automatic attempt: attempts are numbered 0, 1, 2. */
  const LastAttempt: nat := 2

  /** `transaction.id?.toString() || ''`. */
  function IdText(id: Json): string {
    if id.JNull? then "" else ToText(id)
  }

  /** The state the view mounts with. */
  function InitialView(tx: Transaction, isManualEntry: bool): View {
    View(None, !isManualEntry, None, 0, IdText(tx.id), false,
         if isManualEntry then Some(ManualPrompt) else None)
  }

  /** The view as an attempt starts: loading, with every earlier result cleared. */
  function Started(v: View): View {
    v.(loading := true, manualError := None, error := None, wifiCode := None)
  }

  /** A run of a procedure: the state it leaves and the transaction ids it sent, in order. */
  datatype Run = Run(view: View, requests: seq<string>)

  /** How many requests an automatic run entered at `attempt` may send. */
  function Budget(attempt: nat): nat {
    if attempt <= LastAttempt then LastAttempt + 1 - attempt else 1
  }

  /** The error the automatic path reports when its last attempt fails. */
  function AutoFailure(v: Verdict): string {
    match v
    case Thrown(m) => ConnectionMessage(m)
    case _ => NoCodeMessage
  }

  /**
   * `fetchCode(attempt)`. `outcomes[0]` is what this attempt's request comes
   * back with, `outcomes[1..]` what the retries' requests come back with; when
   * `outcomes` runs out the current request is still in flight. A retry is
   * the 3-second timer firing: it records `attempt + 1` as the retry count and
   * starts the next attempt.
   */
  function FetchCode(v: View, tx: Transaction, isManualEntry: bool, attempt: nat,
                     outcomes: seq<Exchange>, parse: string -> Option<Json>): (r: Run)
    // manual mode or a falsy id: nothing is sent and loading stops
    ensures isManualEntry || !Truthy(tx.id) ==> r.requests == [] && r.view == v.(loading := false)
    // otherwise between one request and the remaining budget, all for the transaction's id
    ensures !isManualEntry && Truthy(tx.id) ==> 1 <= |r.requests| <= Budget(attempt)
    ensures forall i :: 0 <= i < |r.requests| ==> r.requests[i] == IdText(tx.id)
    // still loading only while a request is in flight
    ensures r.view.loading ==> |r.requests| == |outcomes| + 1 && r.view.wifiCode.None? && r.view.error.None?
    // a code is shown only once accepted, and then without an error
    ensures |r.requests| > 0 && r.view.wifiCode.Some? ==> Accepted(r.view.wifiCode) && !r.view.loading && r.view.error.None?
    // a finished run ends with exactly one of a code and an error
    ensures |r.requests| > 0 && !r.view.loading ==> (r.view.wifiCode.Some? <==> r.view.error.None?)
    // it gives up only at the last attempt index
    ensures |r.requests| > 0 && r.view.error.Some? ==> attempt + |r.requests| - 1 >= LastAttempt && Present(r.view.error)
    // every retry records its attempt number
    ensures r.view.retryCount == if |r.requests| <= 1 then v.retryCount else attempt + |r.requests| - 1
    ensures |r.requests| > 0 ==> r.view.manualError.None?
    ensures r.view.manualId == v.manualId && r.view.manualLoading == v.manualLoading
    decreases |outcomes|
  {
    if isManualEntry || !Truthy(tx.id) then Run(v.(loading := false), [])
    else
      var started := Started(v);
      var key := IdText(tx.id);
      if |outcomes| == 0 then Run(started, [key])
      else match Judge(outcomes[0], parse)
        case Found(code) => Run(started.(wifiCode := Some(code), loading := false, error := None), [key])
        case verdict =>
          if attempt < LastAttempt then
            var next := FetchCode(started.(retryCount := attempt + 1), tx, isManualEntry, attempt + 1, outcomes[1..], parse);
            Run(next.view, [key] + next.requests)
          else
            Run(started.(error := Some(AutoFailure(verdict)), loading := false), [key])
  }

  /** The position of the first attempt among the first `limit` outcomes that finds a code. */
  function FirstFound(outcomes: seq<Exchange>, parse: string -> Option<Json>, limit: nat): (r: Option<nat>)
    ensures r.Some? ==> r.value < limit && r.value < |outcomes| && Judge(outcomes[r.value], parse).Found?
    ensures forall i :: 0 <= i < |outcomes| && i < limit && (r.None? || i < r.value) ==> !Judge(outcomes[i], parse).Found?
    decreases limit
  {
    if |outcomes| == 0 || limit == 0 then None
    else if Judge(outcomes[0], parse).Found? then Some(0)
    else
      var rest := FirstFound(outcomes[1..], parse, limit - 1);
      assert forall i :: 1 <= i < |outcomes| ==> outcomes[i] == outcomes[1..][i - 1];
      match rest
      case None => None
      case Some(k) => Some(k + 1)
  }

  /**
   * The automatic run in closed form, first case: when an attempt within
   * the budget finds a code, the run ends at the first such attempt with
   * that code.
   */
  lemma {:induction false} FetchCodeFinds(v: View, tx: Transaction, attempt: nat,
                                           outcomes: seq<Exchange>, parse: string -> Option<Json>)
    requires Truthy(tx.id) && attempt <= LastAttempt
    requires FirstFound(outcomes, parse, Budget(attempt)).Some?
    ensures var r := FetchCode(v, tx, false, attempt, outcomes, parse);
            var k := FirstFound(outcomes, parse, Budget(attempt)).value;
            |r.requests| == k + 1 && !r.view.loading
            && r.view.wifiCode == Some(Judge(outcomes[k], parse).code)
    decreases |outcomes|
  {
    if !Judge(outcomes[0], parse).Found? {
      assert attempt < LastAttempt;
      FetchCodeRetry(v, tx, attempt, outcomes, parse);
      FetchCodeFinds(Started(v).(retryCount := attempt + 1), tx, attempt + 1, outcomes[1..], parse);
    }
  }

  /** One unfolding of the automatic run past an attempt that found no code, with budget left. */
  lemma FetchCodeRetry(v: View, tx: Transaction, attempt: nat,
                       outcomes: seq<Exchange>, parse: string -> Option<Json>)
    requires Truthy(tx.id) && attempt < LastAttempt
    requires |outcomes| > 0 && !Judge(outcomes[0], parse).Found?
    ensures var next := FetchCode(Started(v).(retryCount := attempt + 1), tx, false, attempt + 1, outcomes[1..], parse);
            FetchCode(v, tx, false, attempt, outcomes, parse) == Run(next.view, [IdText(tx.id)] + next.requests)
  {
  }

  /**
   * Second case: when no attempt within the budget finds a code and every
   * budgeted request has been answered, the run reports the last attempt's
   * failure after sending the whole budget.
   */
  lemma {:induction false} FetchCodeGivesUp(v: View, tx: Transaction, attempt: nat,
                                             outcomes: seq<Exchange>, parse: string -> Option<Json>)
    requires Truthy(tx.id) && attempt <= LastAttempt
    requires FirstFound(outcomes, parse, Budget(attempt)).None? && |outcomes| >= Budget(attempt)
    ensures var r := FetchCode(v, tx, false, attempt, outcomes, parse);
            |r.requests| == Budget(attempt) && !r.view.loading && r.view.wifiCode.None?
            && r.view.error == Some(AutoFailure(Judge(outcomes[Budget(attempt) - 1], parse)))
    decreases |outcomes|
  {
    if attempt < LastAttempt {
      FetchCodeRetry(v, tx, attempt, outcomes, parse);
      FetchCodeGivesUp(Started(v).(retryCount := attempt + 1), tx, attempt + 1, outcomes[1..], parse);
    }
  }

  /**
   * Third case: when no answered attempt finds a code and the budget is not
   * spent, a request is still in flight and the view is loading.
   */
  lemma {:induction false} FetchCodePending(v: View, tx: Transaction, attempt: nat,
                                             outcomes: seq<Exchange>, parse: string -> Option<Json>)
    requires Truthy(tx.id) && attempt <= LastAttempt
    requires FirstFound(outcomes, parse, Budget(attempt)).None? && |outcomes| < Budget(attempt)
    ensures var r := FetchCode(v, tx, false, attempt, outcomes, parse);
            r.view.loading && |r.requests| == |outcomes| + 1
    decreases |outcomes|
  {
    if |outcomes| > 0 {
      FetchCodeRetry(v, tx, attempt, outcomes, parse);
      FetchCodePending(Started(v).(retryCount := attempt + 1), tx, attempt + 1, outcomes[1..], parse);
    }
  }

  /** The view as mounted by the page, with the automatic run it starts when not in manual mode. */
  function Mount(tx: Transaction, isManualEntry: bool, outcomes: seq<Exchange>,
                 parse: string -> Option<Json>): (r: Run)
    ensures |r.requests| <= 3
    ensures isManualEntry ==> r.requests == [] && r.view == InitialView(tx, true)
    ensures r.view.retryCount <= LastAttempt
  {
    if isManualEntry then Run(InitialView(tx, true), [])
    else FetchCode(InitialView(tx, false), tx, false, 0, outcomes, parse)
  }

  /** Editing the manual identifier field. */
  function EditManualId(v: View, text: string): View {
    v.(manualId := text)
  }

  /** The manual "Récupérer" button is clickable. */
  predicate ManualButtonEnabled(v: View) {
    !v.manualLoading && Trim(v.manualId) != ""
  }

  /**
   * `fetchManualCode`. `reply` is what the single request comes back with;
   * `None` means it is still in flight.
   */
  function FetchManualCode(v: View, reply: Option<Exchange>, parse: string -> Option<Json>): (r: Run)
    // a blank identifier sends nothing and asks for one
    ensures Trim(v.manualId) == "" ==> r.requests == [] && r.view == v.(manualError := Some(MissingIdMessage))
    // otherwise exactly one request, with the trimmed identifier
    ensures Trim(v.manualId) != "" ==> r.requests == [Trim(v.manualId)] && r.view.error.None?
    ensures |r.requests| == 1 && reply.Some? ==> !r.view.manualLoading
    ensures |r.requests| == 1 && reply.None? ==> r.view.manualLoading && r.view.wifiCode.None? && r.view.manualError.None?
    // a settled request shows a code exactly when the attempt found one, and an error otherwise
    ensures |r.requests| == 1 && reply.Some? ==>
              (r.view.wifiCode.Some? <==> Judge(reply.value, parse).Found?)
              && (r.view.wifiCode.Some? <==> r.view.manualError.None?)
    ensures |r.requests| == 1 && r.view.wifiCode.Some? ==> Accepted(r.view.wifiCode)
    // the automatic path's loading flag and retry count are not touched
    ensures r.view.loading == v.loading && r.view.retryCount == v.retryCount && r.view.manualId == v.manualId
  {
    var id := Trim(v.manualId);
    if id == "" then Run(v.(manualError := Some(MissingIdMessage)), [])
    else
      var started := v.(manualLoading := true, manualError := None, wifiCode := None, error := None);
      match reply
      case None => Run(started, [id])
      case Some(e) =>
        var done := started.(manualLoading := false);
        match Judge(e, parse)
        case Found(code) => Run(done.(wifiCode := Some(code), manualError := None), [id])
        case NoCode => Run(done.(manualError := Some(NotFoundMessage)), [id])
        case Thrown(m) => Run(done.(manualError := Some(ManualErrorMessage(m))), [id])
  }

  /**
   * Both paths judge a reply by the same rule: the first automatic attempt
   * shows a code exactly when a manual request receiving the same reply
   * shows that code.
   */
  lemma PathsAgree(v: View, w: View, tx: Transaction, e: Exchange, parse: string -> Option<Json>)
    requires Truthy(tx.id) && Trim(w.manualId) != ""
    ensures FetchCode(v, tx, false, 0, [e], parse).view.wifiCode == FetchManualCode(w, Some(e), parse).view.wifiCode
  {
  }

  /** `wifiCode`, `error` and `manualRetrievalError` as JavaScript conditions: present and non-empty. */
  predicate Present(o: Option<string>) {
    o.Some? && o.value != ""
  }

  /** What the view renders. */
  datatype Panel =
    | Spinner(counter: Option<nat>)               // loading; "Tentative n/3" when a retry is under way
    | Trouble(message: string)                    // the error box with the manual-retrieval field
    | Ticket(code: Option<string>, connect: bool) // the confirmation, with the connect button when a code is shown

  function CurrentPanel(v: View): Panel {
    if v.loading then Spinner(if v.retryCount > 0 then Some(v.retryCount + 1) else None)
    else if !Present(v.wifiCode) && (Present(v.error) || Present(v.manualError)) then
      Trouble(if Present(v.manualError) then v.manualError.value else v.error.value)
    else Ticket(v.wifiCode, Present(v.wifiCode))
  }

  /**
   * After a mounted automatic run the page shows one of: the spinner, whose
   * counter never reads beyond 3/3; the accepted code with the connect
   * button; or the reported error. Without a transaction id it shows the
   * confirmation panel with no code at all.
   */
  lemma MountedPanel(tx: Transaction, outcomes: seq<Exchange>, parse: string -> Option<Json>)
    ensures var r := Mount(tx, false, outcomes, parse);
            var p := CurrentPanel(r.view);
            && (p.Spinner? && p.counter.Some? ==> 2 <= p.counter.value <= 3)
            && (Truthy(tx.id) && !p.Spinner? ==>
                  (p.Ticket? && p.connect && Accepted(p.code)) || (p.Trouble? && Some(p.message) == r.view.error))
            && (!Truthy(tx.id) ==> p == Ticket(None, false))
  {
  }

  /** The manual screen opens on the error box with its prompt. */
  lemma ManualEntryOpensOnPrompt(tx: Transaction)
    ensures CurrentPanel(InitialView(tx, true)) == Trouble(ManualPrompt)
  {
  }

  /** An enabled button always sends exactly one request, with the trimmed identifier. */
  lemma EnabledButtonSendsOnce(v: View, reply: Option<Exchange>, parse: string -> Option<Json>)
    requires ManualButtonEnabled(v)
    ensures FetchManualCode(v, reply, parse).requests == [Trim(v.manualId)]
  {
  }

  /**
   * After a settled manual request the page shows the code with the connect
   * button when one was found, and the error box otherwise.
   */
  lemma ManualPanel(v: View, e: Exchange, parse: string -> Option<Json>)
    requires !v.loading && Trim(v.manualId) != ""
    ensures var p := CurrentPanel(FetchManualCode(v, Some(e), parse).view);
            match Judge(e, parse)
            case Found(code) => p == Ticket(Some(code), true)
            case NoCode => p == Trouble(NotFoundMessage)
            case Thrown(m) => p == Trouble(ManualErrorMessage(m))
  {
  }
}

=== FILE: text.dfy ===
/**
 * Character-level helpers shared by the storefront's components: the
 * whitespace set that JavaScript's `String.prototype.trim` strips and that the
 * regular-expression class `\s` matches, trimming, and decimal rendering of
 * integers (what `String(n)` and template literals produce for an integer).
 */
module Text {

  /** ECMAScript WhiteSpace and LineTerminator code points. */
  const Whitespace: set<char> := {
    '\t', '\n', '\U{000B}', '\U{000C}', '\r', ' ', '\U{00A0}', '\U{1680}',
    '\U{2000}', '\U{2001}', '\U{2002}', '\U{2003}', '\U{2004}', '\U{2005}',
    '\U{2006}', '\U{2007}', '\U{2008}', '\U{2009}', '\U{200A}',
    '\U{2028}', '\U{2029}', '\U{202F}', '\U{205F}', '\U{3000}', '\U{FEFF}'
  }

  predicate IsWhitespace(c: char) {
    c in Whitespace
  }

  predicate AllWhitespace(s: string) {
    forall i :: 0 <= i < |s| ==> IsWhitespace(s[i])
  }

  /** Every character is matched by `\S`. */
  predicate NoWhitespace(s: string) {
    forall i :: 0 <= i < |s| ==> !IsWhitespace(s[i])
  }

  /** Neither end of `s` is whitespace: `s.trim()` would not change it. */
  predicate IsTrimmed(s: string) {
    |s| > 0 ==> !IsWhitespace(s[0]) && !IsWhitespace(s[|s| - 1])
  }

  /** The index of the first non-whitespace character at or after `i`, or `|s|`. */
  function LeadEnd(s: string, i: nat): (n: nat)
    requires i <= |s|
    ensures i <= n <= |s|
    ensures forall k :: i <= k < n ==> IsWhitespace(s[k])
    ensures n < |s| ==> !IsWhitespace(s[n])
    decreases |s| - i
  {
    if i < |s| && IsWhitespace(s[i]) then LeadEnd(s, i + 1) else i
  }

  /**
   * The smallest `e` in `lo..j` such that `s[e..j]` is all whitespace: the end
   * of `s[lo..j]` once trailing whitespace is dropped.
   */
  function TrailStart(s: string, lo: nat, j: nat): (e: nat)
    requires lo <= j <= |s|
    ensures lo <= e <= j
    ensures forall k :: e <= k < j ==> IsWhitespace(s[k])
    ensures e > lo ==> !IsWhitespace(s[e - 1])
    decreases j
  {
    if j > lo && IsWhitespace(s[j - 1]) then TrailStart(s, lo, j - 1) else j
  }

  /** A slice whose every character is whitespace is blank. */
  lemma BlankSlice(s: string, lo: nat, hi: nat)
    requires lo <= hi <= |s|
    requires forall k :: lo <= k < hi ==> IsWhitespace(s[k])
    ensures AllWhitespace(s[lo..hi])
  {
    forall k | 0 <= k < hi - lo
      ensures IsWhitespace(s[lo..hi][k])
    {
      assert s[lo..hi][k] == s[lo + k];
    }
  }

  /** A slice that starts and ends on non-whitespace is trimmed. */
  lemma SliceTrimmed(s: string, a: nat, e: nat)
    requires a <= e <= |s|
    requires a < e ==> !IsWhitespace(s[a]) && !IsWhitespace(s[e - 1])
    ensures IsTrimmed(s[a..e])
  {
    if a < e {
      assert s[a..e][0] == s[a] && s[a..e][e - a - 1] == s[e - 1];
    }
  }

  /**
   * When `s[..a]` is whitespace and `s[a]`, if any, is not, the slice from
   * `a` to a later end `e` is empty exactly when `s` is blank.
   */
  lemma KeptIsEmptyIffBlank(s: string, a: nat, e: nat)
    requires a <= e <= |s|
    requires forall k :: 0 <= k < a ==> IsWhitespace(s[k])
    requires a < |s| ==> !IsWhitespace(s[a]) && a < e
    ensures a == e <==> AllWhitespace(s)
  {
    if a == |s| {
      assert forall k :: 0 <= k < |s| ==> IsWhitespace(s[k]);
    }
  }

  /**
   * `s.trim()`: the slice of `s` left once whitespace is removed from both
   * ends. It is empty exactly when `s` is blank.
   */
  function Trim(s: string): (r: string)
    ensures IsTrimmed(r)
    ensures r == [] <==> AllWhitespace(s)
    ensures exists a :: 0 <= a <= |s| - |r| && r == s[a..a + |r|]
                        && AllWhitespace(s[..a]) && AllWhitespace(s[a + |r|..])
  {
    var a := LeadEnd(s, 0);
    var e := TrailStart(s, a, |s|);
    assert a < |s| ==> e > a;
    BlankSlice(s, 0, a);
    BlankSlice(s, e, |s|);
    SliceTrimmed(s, a, e);
    KeptIsEmptyIffBlank(s, a, e);
    assert s[..a] == s[0..a] && s[e..] == s[e..|s|];
    assert |s[a..e]| == e - a && a + (e - a) == e;
    s[a..e]
  }

  /** Printable ASCII other than the space: the characters `\S` matches in every sample value. */
  predicate VisibleAscii(s: string) {
    forall i :: 0 <= i < |s| ==> '!' <= s[i] <= '~'
  }

  /** A visible-ASCII text has no whitespace, so trimming leaves it unchanged. */
  lemma VisibleAsciiIsTrimmed(s: string)
    requires VisibleAscii(s)
    ensures NoWhitespace(s) && Trim(s) == s
  {
    forall i | 0 <= i < |s|
      ensures !IsWhitespace(s[i])
    {
      assert '!' <= s[i] <= '~';
    }
    TrimNoWhitespace(s);
  }

  /** Trimming an already trimmed text changes nothing. */
  lemma TrimmedIsFixed(s: string)
    requires IsTrimmed(s)
    ensures Trim(s) == s
  {
    if |s| > 0 {
      assert LeadEnd(s, 0) == 0;
      assert TrailStart(s, 0, |s|) == |s|;
    }
  }

  /** `trim()` is idempotent. */
  lemma TrimIdempotent(s: string)
    ensures Trim(Trim(s)) == Trim(s)
  {
    TrimmedIsFixed(Trim(s));
  }

  /** A text without whitespace is its own trim. */
  lemma TrimNoWhitespace(s: string)
    requires NoWhitespace(s)
    ensures Trim(s) == s
  {
    TrimmedIsFixed(s);
  }

  function DigitChar(d: nat): (c: char)
    requires d < 10
    ensures '0' <= c <= '9'
  {
    "0123456789"[d]
  }

  predicate IsDigits(s: string) {
    forall i :: 0 <= i < |s| ==> '0' <= s[i] <= '9'
  }

  /** Decimal rendering of a natural number, without leading zeros. */
  function NatToString(n: nat): (r: string)
    ensures |r| > 0 && IsDigits(r)
    ensures |r| > 1 ==> r[0] != '0'
    decreases n
  {
    if n < 10 then [DigitChar(n)] else NatToString(n / 10) + [DigitChar(n % 10)]
  }

  /** The value of a string of decimal digits: the partner of `NatToString`. */
  function DigitsValue(s: string): nat
    requires IsDigits(s)
  {
    if |s| == 0 then 0 else DigitsValue(s[..|s| - 1]) * 10 + (s[|s| - 1] as int - '0' as int)
  }

  lemma {:induction false} NatToStringRoundTrip(n: nat)
    ensures DigitsValue(NatToString(n)) == n
    decreases n
  {
    if n >= 10 {
      var r := NatToString(n);
      assert r[..|r| - 1] == NatToString(n / 10);
      NatToStringRoundTrip(n / 10);
    }
  }

  /** Decimal rendering of an integer, with a leading `-` when negative. */
  function IntToString(n: int): (r: string)
    ensures |r| > 0 && NoWhitespace(r)
    ensures n >= 0 ==> r == NatToString(n)
    ensures n < 0 ==> r[0] == '-' && r[1..] == NatToString(-n)
  {
    var digits := NatToString(if n < 0 then -n else n);
    DigitsHaveNoWhitespace(digits);
    if n < 0 then
      var r := "-" + digits;
      assert !IsWhitespace('-');
      assert forall i :: 1 <= i < |r| ==> r[i] == digits[i - 1];
      assert r[1..] == digits;
      r
    else digits
  }

  /** A string of decimal digits has no whitespace. */
  lemma DigitsHaveNoWhitespace(s: string)
    requires IsDigits(s)
    ensures NoWhitespace(s)
  {
    forall i | 0 <= i < |s|
      ensures !IsWhitespace(s[i])
    {
      assert '0' <= s[i] <= '9';
    }
  }

  /** `s.substring(0, n)`. */
  function Prefix(s: string, n: nat): (r: string)
    ensures |r| == if |s| < n then |s| else n
    ensures r == s[..|r|]
  {
    if |s| < n then s else s[..n]
  }
}
